=== FILE: README.md ===
# Cozy room: the interaction state machine

The cozy room is a small Three.js page (`index.js`). You walk around a room
with pointer lock and click on a lamp, a television, a computer, a cat and a
sofa. Clicking the computer opens a toy terminal with a handful of commands.
This project models the page's interaction logic in Dafny and proves what the
handlers promise. The logic covers:

- the `state` record;
- the hit selection of `checkInteraction`;
- the click dispatcher;
- the object handlers (`toggleLamp`, `toggleTV`/`updateTV`, `petCat`, `sitOnSofa`);
- computer mode (`enterComputer`, `exitComputer`);
- the terminal (`appendCLI`, the Enter handler, `processCommand`);
- the keyboard, start-button and pointer-lock listeners.

The model has two layers.

- `Interaction` (transitions.dfy) describes each handler as a pure function
  on the value `RoomState` (types.dfy). The invariant `Inv` says three things:
  - the channel is one of 1..5;
  - every light level, colour and material agrees with the flag it was last set from;
  - `computerOn`, `isUsingComputer` and the terminal's visibility agree.

  `Run` folds a sequence of input events.
- `Scene.Room` (scene.dfy) is the page's mutable state as an object. Its
  fields are the groups of `RoomState`: the `state` record, the held keys, the
  view, the lights and materials, the page elements, and two effect logs. Each
  method updates the fields step by step in the order `index.js` does, and its
  contract says the new state is exactly the corresponding `Interaction`
  function of the old one. Every handler method also keeps `Valid()`. The two
  helpers `UpdateTV` and `AppendCLI` are called in the middle of a handler,
  where the invariant may be broken for a moment, so they do not promise it.

The page's outside world becomes explicit values:

- The raycaster's result is a list of `(kind, distance)` hits, nearest first.
- `Math.random()` picks become index parameters: the cat phrase and the joke.
- `toLocaleTimeString()` becomes a `clock` string parameter.
- Sounds are a log of cues (click, static, meow, purr, key press).
- `window.open`, `exitPointerLock()` and the delayed `requestPointerLock()`
  are a log of host requests.

The terminal's text handling is in `Terminal` (terminal.dfy):

- `Trim` is `String.prototype.trim`, over the full ECMAScript white-space and
  line-terminator set.
- `Lower` is `toLowerCase` for every character whose lower case is an ASCII
  letter: the letters A-Z and the Kelvin sign (U+212A), which becomes `k`.
- `Parse` is the command switch. `Respond` and `Enter` give the transcript
  after a command.

Properties are in `InteractionProperties` (properties.dfy) and
`TerminalProperties` (terminal_properties.dfy).

Three behaviours of the code that a reader might not expect:

- `enterComputer` releases pointer lock itself (index.js:551). The resulting
  lock-loss event finds computer mode on and leaves it at once
  (index.js:412-414, `EnteringIsUndoneByOwnLockRelease`).
- `clear` empties the output (index.js:607-608), and the `appendCLI('')` at
  index.js:628 then adds one blank line, so the terminal is never left empty
  (`ClearLeavesOneBlank`).
- Sitting down moves the camera to the seat and levels the view. Mouse-look
  is still not gated by `isSitting` (index.js:391), so a seated user can
  still look around.

## Model

| member | source | states |
|---|---|---|
| Terminal.TrimStart | index.js:574 | the result is a suffix of the input, everything cut off is white space, and the result does not start with white space |
| Terminal.TrimEnd | index.js:574 | the result is a prefix of the input, everything cut off is white space, and the result does not end with white space |
| Terminal.Trim | index.js:574 | the result is what `TrimStart` leaves with the white space at its end cut off; with `TrimStart`'s contract, the input is white space, then the result, then white space; the result neither starts nor ends with white space |
| Terminal.Lower | index.js:574 | same length; each character is lower-cased on its own; no upper-case ASCII letter and no Kelvin sign is left; each upper-case letter becomes its lower-case partner (+32), the Kelvin sign becomes `k`, and every other character is kept |
| Terminal.LowerCharKeepsSpace | index.js:574 | lower-casing never turns a character into white space or back |
| Terminal.Normalize | index.js:574 | the normalised line has no white space at either end, no letter A-Z and no Kelvin sign; with this model's lower-casing it is never longer than the input |
| Terminal.Reply | index.js:582-627 | a command writes nothing of its own exactly when it is `clear`, `exit` or the empty command |
| Terminal.Respond | index.js:582-629 | the transcript always ends with one blank line; every command but `clear` keeps the old transcript as a strict prefix |
| Terminal.Enter | index.js:572-580 | after Enter the transcript always ends with one blank line |
| Terminal.Parse | index.js:583-627 | the parsed command's name is the input, and the command is `Unknown` exactly when the input names none of the eight cases |
| Interaction.Initial | index.js:2-12 | the page as loaded satisfies the invariant |
| Interaction.Target | index.js:422-437 | a target is always one of the hits and nearer than 4; when no hit is nearer than 4 there is no target |
| Interaction.JsRem | index.js:480 | JavaScript `%`: the remainder lies strictly between -n and n, takes the sign of the dividend, and dividend = n*q + remainder for some q |
| Interaction.NextChannel | index.js:480 | from any channel that is not negative, the next channel is one of 1..5 |
| Interaction.UpdateTV | index.js:486-495 | the screen shows a colour exactly when the set is on, and the colour is one of the five channel colours; only the TV screen and TV light change |
| Interaction.PetCue | index.js:503-507 | a pet plays either the purr or the meow |
| Interaction.AppendCLI | index.js:565-570 | keeps the invariant; exactly one line, the text, is added: the transcript grows by one, the old transcript is kept as a prefix and the new last line is the text; nothing but the transcript changes |
| Interaction.ToggleLamp | index.js:467-473 | keeps the invariant: lamp 1.5/0, bulb 0xffdd88/0x333333 and ambient 0.4/0.3 follow the new `lampOn` |
| Interaction.ToggleTV | index.js:475-484 | keeps the invariant: the channel stays in 1..5 and the screen and TV light follow `tvOn` and the channel |
| Interaction.PetCat | index.js:498-517 | keeps the invariant |
| Interaction.SitOnSofa | index.js:519-527 | keeps the invariant |
| Interaction.EnterComputer | index.js:534-552 | keeps the invariant: both mode flags, the terminal's visibility and the monitor screen are on together |
| Interaction.ExitComputer | index.js:554-563 | keeps the invariant: both mode flags, the terminal's visibility and the monitor screen are off together |
| Interaction.ProcessCommand | index.js:582-629 | keeps the invariant, `exit` included |
| Interaction.CliKeyDown | index.js:572-580 | keeps the invariant |
| Interaction.KeyDown | index.js:379-384 | keeps the invariant |
| Interaction.KeyUp | index.js:386-388 | keeps the invariant |
| Interaction.StartButton | index.js:404-407 | keeps the invariant |
| Interaction.PointerLockChange | index.js:409-415 | keeps the invariant |
| Interaction.Handle | index.js:446-464 | each tag's handler keeps the invariant |
| Interaction.OnClick | index.js:440-465 | keeps the invariant |
| Interaction.Step | index.js:379-465 | every input event keeps the invariant |
| Interaction.Run | index.js:379-465 | the invariant holds after any sequence of events, so the channel is in 1..5 in every reachable state |
| Scene.Room.constructor | index.js:2-12 | the new object is valid and is the page as loaded |
| Scene.Room.ToggleLamp | index.js:467-473 | the new state is `Interaction.ToggleLamp` of the old one, and the object stays valid |
| Scene.Room.ToggleTV | index.js:475-484 | the new state is `Interaction.ToggleTV` of the old one, and the object stays valid |
| Scene.Room.UpdateTV | index.js:486-495 | the new state is `Interaction.UpdateTV` of the old one |
| Scene.Room.PetCat | index.js:498-517 | the new state is `Interaction.PetCat` of the old one, and the object stays valid |
| Scene.Room.SitOnSofa | index.js:519-527 | the new state is `Interaction.SitOnSofa` of the old one, and the object stays valid |
| Scene.Room.EnterComputer | index.js:534-552 | the new state is `Interaction.EnterComputer` of the old one, and the object stays valid |
| Scene.Room.ExitComputer | index.js:554-563 | the new state is `Interaction.ExitComputer` of the old one, and the object stays valid |
| Scene.Room.AppendCLI | index.js:565-570 | the new state is the old one with the line added at the end of the transcript |
| Scene.Room.CliKeyDown | index.js:572-580 | the new state is `Interaction.CliKeyDown` of the old one, and the object stays valid |
| Scene.Room.ProcessCommand | index.js:582-629 | the new state is `Interaction.ProcessCommand` of the old one, and the object stays valid |
| Scene.Room.KeyDown | index.js:379-384 | the new state is `Interaction.KeyDown` of the old one, and the object stays valid |
| Scene.Room.KeyUp | index.js:386-388 | the new state is `Interaction.KeyUp` of the old one, and the object stays valid |
| Scene.Room.StartButton | index.js:404-407 | the new state is `Interaction.StartButton` of the old one, and the object stays valid |
| Scene.Room.PointerLockChange | index.js:409-415 | the new state is `Interaction.PointerLockChange` of the old one, and the object stays valid |
| Scene.Room.OnClick | index.js:440-465 | the new state is `Interaction.OnClick` of the old one, and the object stays valid |
| InteractionProperties.NextChannelWraps | index.js:480 | `(c % 5) + 1` on a channel in 1..5 is the next channel, and 5 wraps to 1 |
| InteractionProperties.ToggleTVEffect | index.js:475-495 | the first press only switches the set on (channel kept, click cue); later presses advance the channel (static cue); afterwards the set is on and shows `colors[channel - 1]` (the index is inside the table) at light 0.8; nothing else changes |
| InteractionProperties.UpdateTVEffect | index.js:486-495 | on: the screen is `colors[tvChannel - 1]`, that index is inside the five-entry table, and the light is 0.8; off: the off material and light 0 |
| InteractionProperties.PressTV | index.js:475-484 | any number of presses keeps the invariant |
| InteractionProperties.PressedChannel | index.js:475-484 | a press leaves the set on, on the next channel when it was already on |
| InteractionProperties.CycleStep | index.js:480 | one step round the five channels followed by k - 1 more is k steps |
| InteractionProperties.ChannelCycles | index.js:475-484 | with the set on, k presses leave it on and advance the channel k steps round 1, 2, 3, 4, 5, 1, ... |
| InteractionProperties.ChannelsFromOff | index.js:475-484 | from off, the first press only switches the set on, and k more presses advance the channel by k |
| InteractionProperties.ToggleLampEffect | index.js:467-473 | flips `lampOn`; lamp 1.5/0, bulb 0xffdd88/0x333333, ambient 0.4/0.3; click cue |
| InteractionProperties.ToggleLampTwice | index.js:467-473 | two toggles restore every field; only the two click cues remain |
| InteractionProperties.PetCatEffect | index.js:498-517 | the count grows by exactly one; purr exactly when the new count is a multiple of 3, meow otherwise; the bubble shows one of the four phrases; nothing else changes |
| InteractionProperties.PurrsAppend | index.js:503-507 | purrs in a concatenation add up |
| InteractionProperties.PetMany | index.js:498-517 | any number of pets keeps the invariant |
| InteractionProperties.NextMultipleOfThree | index.js:503-507 | stepping a count by one passes a multiple of 3 exactly when the new count is one |
| InteractionProperties.PetCues | index.js:503-507 | n pets play n cues |
| InteractionProperties.PetManyEffect | index.js:498-517 | n pets add n to the count and play the cue of each count passed, in order, after the old cues |
| InteractionProperties.PurrsOfPetCues | index.js:503-507 | among the cues of n pets from count c, the purrs are exactly the multiples of 3 in (c, c + n] |
| InteractionProperties.ThreePetsOnePurr | index.js:500-507 | of any three pets in a row, exactly one purrs |
| InteractionProperties.EveryThirdPetPurrs | index.js:498-517 | after n pets: the count is c + n; n new cues follow the old ones unchanged; (c + n)/3 - c/3 of them are purrs |
| InteractionProperties.SitOnSofaEffect | index.js:519-527 | flips `isSitting`; sitting down puts the camera at (0, 1.1, 1.2) with yaw = pitch = 0 and a level rotation; standing up changes nothing else |
| InteractionProperties.SitThenStand | index.js:519-527 | sitting down and standing up leaves the camera at the seat, looking level, free to move |
| InteractionProperties.TargetIsNearestInRange | index.js:422-437 | for hits listed nearest first: there is a target exactly when some hit is nearer than 4, and the target is then a nearest hit and nearer than 4 |
| InteractionProperties.ClickDispatch | index.js:440-465 | a click is a no-op unless the pointer is locked outside computer mode and the nearest hit is nearer than 4; otherwise it runs exactly the handler of that hit's tag |
| InteractionProperties.EnterComputerEffect | index.js:534-552 | sets both mode flags and shows the terminal; the transcript is exactly the three banner lines; monitor 0x001100; click cue; opens https://9up.us/cli in a new tab, then releases pointer lock |
| InteractionProperties.ExitComputerEffect | index.js:554-563 | clears both mode flags; hides the terminal; monitor off; keeps the transcript; asks for pointer lock again after 100 ms |
| InteractionProperties.EscapeExits | index.js:379-384 | in computer mode, Escape leaves it, with the delayed lock request |
| InteractionProperties.LockLossExits | index.js:409-415 | in computer mode, losing pointer lock leaves it, with the delayed lock request |
| InteractionProperties.ExitLineExits | index.js:619-620 | in computer mode, running `exit` leaves it, with the delayed lock request; the transcript gains `$ exit` and the blank line |
| InteractionProperties.ExitCommandExits | index.js:572-580 | in computer mode, entering `exit` in any case, with any surrounding white space, leaves it with the delayed lock request, after `$ exit` and the blank line |
| InteractionProperties.NoOtherExit | index.js:379-415 | any other key, or Escape outside computer mode, only marks the key as held; gaining pointer lock only records it |
| InteractionProperties.EnteringIsUndoneByOwnLockRelease | index.js:409-415 | clicking the computer enters computer mode and ends by releasing pointer lock; the lock-loss event that follows leaves computer mode again, with the banner in the hidden terminal and a delayed lock request |
| InteractionProperties.ProcessCommandEffect | index.js:582-629 | the transcript becomes what `Respond` gives; `exit` also does everything `exitComputer` does; every other command changes nothing but the transcript |
| InteractionProperties.CliEnterEffect | index.js:572-580 | Enter writes what `Terminal.Enter` gives and plays the key-press cue; computer mode ends only when the normalised line is `exit` |
| InteractionProperties.CliOtherKeyEffect | index.js:572-580 | any key other than Enter only plays the key-press cue |
| InteractionProperties.ClickGrows | index.js:440-465 | a click never switches the TV off, never lowers the pet count, and only appends to the logs |
| InteractionProperties.CliKeyDownGrows | index.js:572-629 | a terminal key never switches the TV off, never lowers the pet count, and only appends to the logs |
| InteractionProperties.StepGrows | index.js:379-465 | no event switches the TV off or lowers the pet count, and every event only appends to the sound and request logs |
| InteractionProperties.RunKeepsPromises | index.js:379-465 | along any run of events from a valid state: the channel stays in 1..5, a TV that was on is still on, the pet count has not dropped, and both logs have only grown |
| TerminalProperties.LowerIdempotent | index.js:574 | lower-casing twice is lower-casing once |
| TerminalProperties.TrimOfTrimmed | index.js:574 | a string with no white space at either end is its own trim |
| TerminalProperties.NormalizeIdempotent | index.js:574 | normalising (trim, then lower-case) twice is normalising once |
| TerminalProperties.ShoutedHelpNormalizes | index.js:574 | `  HELP  ` normalises to `help` |
| TerminalProperties.HelpIsNormal | index.js:574 | `help` is in normal form |
| TerminalProperties.EnterSeesNormalForm | index.js:572-580 | two inputs with the same normal form do exactly the same to the transcript |
| TerminalProperties.EnterEchoes | index.js:572-580 | except for `clear`, Enter keeps the old transcript, puts `$ ` + the normalised line right below it, and adds more after it |
| TerminalProperties.EchoKept | index.js:582-629 | every command but `clear` keeps everything above it and writes at least one line |
| TerminalProperties.ShoutedHelpIsHelp | index.js:572-580 | entering `  HELP  ` does exactly what entering `help` does |
| TerminalProperties.HelpListsCommands | index.js:572-593 | entering `help` echoes `$ help`, lists the eight help lines, and adds the blank line |
| TerminalProperties.HelpReply | index.js:575-593 | after the echo `$ help`, `help` appends the eight help lines and the blank line |
| TerminalProperties.KelvinJokeNormalizes | index.js:574 | `JO` + Kelvin sign + `E` normalises to `joke` |
| TerminalProperties.JokeIsNormal | index.js:574 | `joke` is in normal form |
| TerminalProperties.KelvinJokeIsJoke | index.js:572-580 | entering `JO` + Kelvin sign + `E` does exactly what entering `joke` does |
| TerminalProperties.ParseName | index.js:583-627 | parsing a command's name gives back the command |
| TerminalProperties.ExitAddsOnlyBlank | index.js:619-628 | `exit` writes nothing but the blank line |
| TerminalProperties.ClearReply | index.js:607-628 | `clear` leaves exactly `[""]` |
| TerminalProperties.ClearLeavesOneBlank | index.js:572-580 | entering `clear` in any form leaves the transcript equal to `[""]`; even the echo is gone |
| TerminalProperties.TrimStartOfSpace | index.js:574 | trimming the start of an all-white-space string leaves nothing |
| TerminalProperties.BlankLineEchoes | index.js:622-628 | the empty line is echoed as `$ ` and answered with just the blank line |
| TerminalProperties.EmptyInputAddsOnlyBlank | index.js:572-580 | empty or all-white-space input adds `$ ` and the blank line, nothing more |
| TerminalProperties.UnknownCommandIsReported | index.js:624-628 | an unknown command appends `Unknown command: ` + the command, the help hint, and the blank line |

## Left out

- Audio synthesis (index.js:14-72): oscillators, buffers and timing. Only the cue each handler asks for is kept, in the `sounds` log.
- Scene-graph construction (index.js:74-370): Three.js meshes, materials and lights. Only the values the handlers write are kept.
- Raycasting: the library call that produces the hit list (index.js:423-424). The hit list is an input. Sortedness is a precondition of `TargetIsNearestInRange` only, as the handlers never check it.
- The per-frame loop (index.js:632-697): movement, head bobbing, blinking, the lamp ripple, the random TV flicker, and the ±5 position clamp. All of this is floating point and timing. The flicker overwrites light levels each frame, so the light levels in the model are the values the handlers set.
- Mouse-look (index.js:390-398): floating-point yaw/pitch integration and clamp. Only the sofa changes `yaw`/`pitch` in the model.
- Presentation-only effects: the tooltip and crosshair styling in `checkInteraction`, the start overlay, the cat bubble's display, opacity and fade timers (index.js:510-516), `cliInput.focus()`, the terminal's scroll position, and window resize (index.js:700-704).
- `initAudio` in the start-button listener is audio set-up; only the pointer-lock request is modelled.
- Host timing: `window.open`, `exitPointerLock()` and the 100 ms delayed `requestPointerLock()` are recorded as requests and not performed. The browser's answer arrives as a separate pointer-lock-change event, whose `locked` argument stands for `document.pointerLockElement === renderer.domElement`.
- `cliInput.value = ''` after Enter: the input box's content is a parameter of each key event, not state.
- `state.cliHistory` (index.js:10) is never read or written by the code, so the model has no such field.
- A key pressed in the terminal input also bubbles to the document listener. The model has one event per listener: a terminal key-down followed by a document key-down.
- Terminal.Normalize: its length bound and its case property are facts about the modelled lower-casing. JavaScript lower-cases U+0130 to two code units, so the source's normalised line can be longer than its input, and capitals of other scripts, such as É, survive normalisation here.
- JavaScript numbers are doubles: past 2^53, `state.catPetCount++` (index.js:501) no longer adds one, while the model's `nat` count grows without bound. No session can pet the cat that often.
- Strings are modelled as sequences of code points, not UTF-16 code units, so a lone surrogate typed into the input box has no counterpart in the model.
- Terminal.Lower: lower-cases only the characters whose lower case is an ASCII letter (A-Z and the Kelvin sign). `toLowerCase` also maps letters of other scripts, such as Latin-1, Greek and Cyrillic. It maps U+0130 to `i` followed by U+0307, a combining dot. None of these results is a command name, so `Parse` picks the same command either way. Only the echoed and reported text of such an unknown command differs.

=== FILE: properties.dfy ===
/** What the interaction handlers promise, stated over the pure transitions of
    `Interaction`: the channel cycle, the lamp involution, the every-third-pet
    purr, the sofa pose, click dispatch and the three ways out of computer
    mode. */
module InteractionProperties {
  import opened SceneTypes
  import opened Terminal
  import opened Interaction
  import TerminalProperties

  // ---------------------------------------------------------------------
  // Television

  /** `(c % 5) + 1` on a valid channel is the next channel, 5 wrapping to 1. */
  lemma NextChannelWraps(c: int)
    requires 1 <= c <= ChannelCount
    ensures NextChannel(c) == if c == ChannelCount then 1 else c + 1
  {
  }

  /** The first press switches the set on and keeps the channel (click cue);
      each later press moves to the next channel (static cue). Either way the
      set ends up on, showing its channel's colour with the TV light at 0.8,
      and nothing else changes. */
  lemma ToggleTVEffect(s: RoomState)
    requires Inv(s)
    ensures var r := ToggleTV(s);
            && r.state.tvOn
            && r.state.tvChannel == (if s.state.tvOn then NextChannel(s.state.tvChannel) else s.state.tvChannel)
            && r.sounds == s.sounds + [if s.state.tvOn then Static else Click]
            && 0 <= r.state.tvChannel - 1 < |ChannelColors|
            && r.look.tvScreen == Basic(ChannelColors[r.state.tvChannel - 1])
            && r.look.tvIntensity == TvOnIntensity
            && r.(state := r.state.(tvOn := s.state.tvOn, tvChannel := s.state.tvChannel),
                  sounds := s.sounds,
                  look := r.look.(tvScreen := s.look.tvScreen, tvIntensity := s.look.tvIntensity)) == s
  {
  }

  /** `updateTV` shows `colors[tvChannel - 1]` (an index inside the five-entry
      table) with the light at 0.8 while on, and the off material with the
      light at 0 while off. */
  lemma UpdateTVEffect(s: RoomState)
    requires 1 <= s.state.tvChannel <= ChannelCount
    ensures var r := UpdateTV(s);
            && 0 <= s.state.tvChannel - 1 < |ChannelColors|
            && (s.state.tvOn ==> r.look.tvScreen == Basic(ChannelColors[s.state.tvChannel - 1]) && r.look.tvIntensity == 0.8)
            && (!s.state.tvOn ==> r.look.tvScreen == ScreenOff && r.look.tvIntensity == 0.0)
  {
  }

  /** The state after pressing the television `k` times. */
  function PressTV(s: RoomState, k: nat): (r: RoomState)
    requires Inv(s)
    ensures Inv(r)
    decreases k
  {
    if k == 0 then s else PressTV(ToggleTV(s), k - 1)
  }

  /** A press leaves the set on, on the next channel if it was already on. */
  lemma PressedChannel(s: RoomState)
    requires Inv(s)
    ensures ToggleTV(s).state.tvOn
    ensures ToggleTV(s).state.tvChannel == if s.state.tvOn then NextChannel(s.state.tvChannel) else s.state.tvChannel
  {
  }

  /** The channel `k` steps round the cycle 1, 2, 3, 4, 5, 1, ... from `c`. */
  function Advance(c: int, k: nat): int {
    (c - 1 + k) % ChannelCount + 1
  }

  /** One step round the cycle followed by `k - 1` more is `k` steps. */
  lemma CycleStep(c: int, k: nat)
    requires 1 <= c <= ChannelCount && k > 0
    ensures Advance(NextChannel(c), k - 1) == Advance(c, k)
  {
    NextChannelWraps(c);
    if c == ChannelCount {
      assert c - 1 + k == (k - 1) + ChannelCount;
    }
  }

  /** Once the set is on, `k` presses advance the channel by `k` around the
      cycle 1, 2, 3, 4, 5, 1, ... */
  lemma {:induction false} ChannelCycles(s: RoomState, k: nat)
    requires Inv(s) && s.state.tvOn
    ensures PressTV(s, k).state.tvOn
    ensures PressTV(s, k).state.tvChannel == Advance(s.state.tvChannel, k)
    decreases k
  {
    if k > 0 {
      var t := ToggleTV(s);
      PressedChannel(s);
      ChannelCycles(t, k - 1);
      CycleStep(s.state.tvChannel, k);
    }
  }

  /** From a set that is off, the first press only switches it on; the
      channel shown after `k + 1` presses is `k` steps further round. */
  lemma {:induction false} ChannelsFromOff(s: RoomState, k: nat)
    requires Inv(s) && !s.state.tvOn
    ensures PressTV(s, k + 1).state.tvOn
    ensures PressTV(s, k + 1).state.tvChannel == Advance(s.state.tvChannel, k)
  {
    ChannelCycles(ToggleTV(s), k);
  }

  // ---------------------------------------------------------------------
  // Lamp

  /** A lamp toggle flips `lampOn`, sets the lamp to 1.5 / 0, the bulb to
      0xffdd88 / 0x333333 and the ambient light to 0.4 / 0.3, and plays the
      click cue. */
  lemma ToggleLampEffect(s: RoomState)
    requires Inv(s)
    ensures var r := ToggleLamp(s);
            && r.state.lampOn == !s.state.lampOn
            && r.look.lampIntensity == (if r.state.lampOn then 1.5 else 0.0)
            && r.look.bulbColor == (if r.state.lampOn then 0xffdd88 else 0x333333)
            && r.look.ambientIntensity == (if r.state.lampOn then 0.4 else 0.3)
            && r.sounds == s.sounds + [Click]
  {
  }

  /** Toggling the lamp twice restores every field but the sound log, which
      gains two clicks. */
  lemma ToggleLampTwice(s: RoomState)
    requires Inv(s)
    ensures ToggleLamp(ToggleLamp(s)) == s.(sounds := s.sounds + [Click, Click])
  {
  }

  // ---------------------------------------------------------------------
  // Cat

  /** One pet adds exactly one to the count, purrs exactly when the new
      count is a multiple of three and meows otherwise, shows the chosen
      phrase, and changes nothing else. */
  lemma PetCatEffect(s: RoomState, phrase: nat)
    requires Inv(s) && phrase < |CatPhrases|
    ensures var r := PetCat(s, phrase);
            && r.state.catPetCount == s.state.catPetCount + 1
            && r.sounds == s.sounds + [if r.state.catPetCount % 3 == 0 then Purr else Meow]
            && r.page.catBubble in CatPhrases
            && r.(state := r.state.(catPetCount := s.state.catPetCount), sounds := s.sounds,
                  page := r.page.(catBubble := s.page.catBubble)) == s
  {
  }

  /** The number of purr cues in a cue log. */
  function Purrs(cues: seq<Cue>): nat {
    if cues == [] then 0 else (if cues[0] == Purr then 1 else 0) + Purrs(cues[1..])
  }

  lemma {:induction false} PurrsAppend(a: seq<Cue>, b: seq<Cue>)
    ensures Purrs(a + b) == Purrs(a) + Purrs(b)
  {
    if a == [] {
      assert a + b == b;
    } else {
      assert (a + b)[1..] == a[1..] + b;
      PurrsAppend(a[1..], b);
    }
  }

  /** The state after petting the cat once per entry of `phrases`. */
  function PetMany(s: RoomState, phrases: seq<nat>): (r: RoomState)
    requires Inv(s)
    requires forall i :: 0 <= i < |phrases| ==> phrases[i] < |CatPhrases|
    ensures Inv(r)
    decreases |phrases|
  {
    if phrases == [] then s else PetMany(PetCat(s, phrases[0]), phrases[1..])
  }

  lemma NextMultipleOfThree(c: nat)
    ensures (c + 1) / 3 - c / 3 == if (c + 1) % 3 == 0 then 1 else 0
  {
  }

  /** The cues of `n` pets starting from the count `c`. */
  function PetCues(c: nat, n: nat): (cues: seq<Cue>)
    ensures |cues| == n
    decreases n
  {
    if n == 0 then [] else [PetCue(c + 1)] + PetCues(c + 1, n - 1)
  }

  /** Petting once per phrase adds that many to the count and plays the cue
      of each count passed, in order, after the old cues. */
  lemma {:induction false} PetManyEffect(s: RoomState, phrases: seq<nat>)
    requires Inv(s)
    requires forall i :: 0 <= i < |phrases| ==> phrases[i] < |CatPhrases|
    ensures var r := PetMany(s, phrases);
            && r.state.catPetCount == s.state.catPetCount + |phrases|
            && r.sounds == s.sounds + PetCues(s.state.catPetCount, |phrases|)
    decreases |phrases|
  {
    if phrases != [] {
      var t := PetCat(s, phrases[0]);
      PetManyEffect(t, phrases[1..]);
      var cues := PetCues(t.state.catPetCount, |phrases| - 1);
      assert s.sounds + [PetCue(t.state.catPetCount)] + cues == s.sounds + ([PetCue(t.state.catPetCount)] + cues);
    }
  }

  /** Among the cues of `n` pets from the count `c`, the purrs are exactly
      the multiples of three passed on the way. */
  lemma {:induction false} PurrsOfPetCues(c: nat, n: nat)
    ensures Purrs(PetCues(c, n)) == (c + n) / 3 - c / 3
    decreases n
  {
    if n > 0 {
      PurrsOfPetCues(c + 1, n - 1);
      PurrsAppend([PetCue(c + 1)], PetCues(c + 1, n - 1));
      NextMultipleOfThree(c);
    }
  }

  /** Of any three pets in a row, exactly one purrs. */
  lemma ThreePetsOnePurr(c: nat)
    ensures Purrs(PetCues(c, 3)) == 1
  {
    PurrsOfPetCues(c, 3);
  }

  /** After `n` pets the count has grown by `n`, `n` cues were played after
      the old ones, and the purrs among them are exactly the multiples of
      three passed on the way. */
  lemma EveryThirdPetPurrs(s: RoomState, phrases: seq<nat>)
    requires Inv(s)
    requires forall i :: 0 <= i < |phrases| ==> phrases[i] < |CatPhrases|
    ensures var r := PetMany(s, phrases);
            && r.state.catPetCount == s.state.catPetCount + |phrases|
            && |r.sounds| == |s.sounds| + |phrases|
            && r.sounds[..|s.sounds|] == s.sounds
            && Purrs(r.sounds[|s.sounds|..]) == (s.state.catPetCount + |phrases|) / 3 - s.state.catPetCount / 3
  {
    PetManyEffect(s, phrases);
    PurrsOfPetCues(s.state.catPetCount, |phrases|);
    var r := PetMany(s, phrases);
    assert r.sounds[|s.sounds|..] == PetCues(s.state.catPetCount, |phrases|);
  }

  // ---------------------------------------------------------------------
  // Sofa

  /** Sitting down snaps the camera to the seat at (0, 1.1, 1.2) looking
      level (yaw = pitch = 0); standing up changes only `isSitting`. */
  lemma SitOnSofaEffect(s: RoomState)
    requires Inv(s)
    ensures var r := SitOnSofa(s);
            && r.state.isSitting == !s.state.isSitting
            && (r.state.isSitting ==>
                  && r.view.position == Vec3(0.0, 1.1, 1.2)
                  && r.view.yaw == 0.0 && r.view.pitch == 0.0
                  && r.view.rotation == Vec3(0.0, 0.0, 0.0))
            && (!r.state.isSitting ==> r == s.(state := s.state.(isSitting := false)))
  {
  }

  /** From any free pose, sitting down and standing up again leaves the camera
      at the seat, looking level, and free to move. */
  lemma SitThenStand(s: RoomState)
    requires Inv(s) && !s.state.isSitting
    ensures var r := SitOnSofa(SitOnSofa(s));
            !r.state.isSitting && r.view.position == SeatPosition && r.view.yaw == 0.0 && r.view.pitch == 0.0
  {
  }

  // ---------------------------------------------------------------------
  // Hit selection and click dispatch

  /** The raycaster's order: nearest hit first. */
  predicate NearestFirst(hits: seq<Hit>) {
    forall i, j :: 0 <= i < j < |hits| ==> hits[i].distance <= hits[j].distance
  }

  /** For hits listed nearest first, there is a target exactly when some hit
      is in range, and the target is then a nearest hit and in range; a hit
      at 4 or more never becomes the target. */
  lemma {:induction false} TargetIsNearestInRange(hits: seq<Hit>)
    requires NearestFirst(hits)
    ensures Target(hits).Some? <==> exists i :: 0 <= i < |hits| && hits[i].distance < InteractionRange
    ensures Target(hits).Some? ==>
              exists i :: 0 <= i < |hits| && hits[i].kind == Target(hits).value
                          && hits[i].distance < InteractionRange
                          && forall j :: 0 <= j < |hits| ==> hits[i].distance <= hits[j].distance
  {
    if exists i :: 0 <= i < |hits| && hits[i].distance < InteractionRange {
      var i :| 0 <= i < |hits| && hits[i].distance < InteractionRange;
      assert hits[0].distance <= hits[i].distance;
      assert forall j :: 0 <= j < |hits| ==> hits[0].distance <= hits[j].distance by {
        forall j | 0 < j < |hits| ensures hits[0].distance <= hits[j].distance { }
      }
    }
  }

  /** A click does nothing unless the pointer is locked outside computer mode
      and the nearest hit is nearer than 4; otherwise it runs exactly the
      handler of that hit's kind. */
  lemma ClickDispatch(s: RoomState, hits: seq<Hit>, phrase: nat)
    requires Inv(s) && phrase < |CatPhrases|
    ensures !s.state.isPointerLocked || s.state.isUsingComputer ==> OnClick(s, hits, phrase) == s
    ensures |hits| == 0 || hits[0].distance >= InteractionRange ==> OnClick(s, hits, phrase) == s
    ensures s.state.isPointerLocked && !s.state.isUsingComputer && |hits| > 0 && hits[0].distance < InteractionRange ==>
              OnClick(s, hits, phrase) == match hits[0].kind
                                          case Lamp => ToggleLamp(s)
                                          case Tv => ToggleTV(s)
                                          case Computer => EnterComputer(s)
                                          case Cat => PetCat(s, phrase)
                                          case Sofa => SitOnSofa(s)
  {
  }

  // ---------------------------------------------------------------------
  // Computer mode

  /** Entering the computer sets both mode flags, shows the terminal with
      exactly the banner, turns the monitor on, plays the click cue, opens the
      terminal page in a new tab and releases pointer lock. */
  lemma EnterComputerEffect(s: RoomState)
    requires Inv(s)
    ensures var r := EnterComputer(s);
            && r.state.isUsingComputer && r.state.computerOn && r.page.cliVisible
            && r.page.transcript == ["OS v1.0 - Welcome!", "Type \"help\" for available commands.", ""]
            && r.look.monitorScreen == Basic(0x001100)
            && r.sounds == s.sounds + [Click]
            && r.requests == s.requests + [OpenTab("https://9up.us/cli", "_blank"), ExitPointerLock]
  {
  }

  /** Leaving the computer clears both mode flags, hides the terminal, turns
      the monitor off, keeps the transcript and asks for pointer lock again
      after 100 ms. */
  lemma ExitComputerEffect(s: RoomState)
    requires Inv(s)
    ensures var r := ExitComputer(s);
            && !r.state.isUsingComputer && !r.state.computerOn && !r.page.cliVisible
            && r.look.monitorScreen == ScreenOff
            && r.page.transcript == s.page.transcript
            && r.requests == s.requests + [RequestPointerLock(100)]
  {
  }

  /** In computer mode, Escape leaves it, with the delayed lock request. */
  lemma EscapeExits(s: RoomState)
    requires Inv(s) && s.state.isUsingComputer
    ensures var r := KeyDown(s, "Escape");
            && !r.state.isUsingComputer && !r.page.cliVisible && r.look.monitorScreen == ScreenOff
            && r.requests == s.requests + [RequestPointerLock(RelockDelayMs)]
  {
  }

  /** In computer mode, losing pointer lock leaves it, with the delayed lock
      request. */
  lemma LockLossExits(s: RoomState)
    requires Inv(s) && s.state.isUsingComputer
    ensures var r := PointerLockChange(s, false);
            && !r.state.isUsingComputer && !r.page.cliVisible && r.look.monitorScreen == ScreenOff
            && r.requests == s.requests + [RequestPointerLock(RelockDelayMs)]
  {
  }

  /** Running the line `exit` in computer mode leaves it, with the delayed
      lock request, after echoing `$ exit` and the blank line. */
  lemma ExitLineExits(s: RoomState, clock: string, joke: nat)
    requires Inv(s) && s.state.isUsingComputer
    requires joke < |Jokes|
    ensures var r := ProcessCommand(AppendCLI(s, "$ " + "exit"), "exit", clock, joke);
            && !r.state.isUsingComputer && !r.page.cliVisible && r.look.monitorScreen == ScreenOff
            && r.requests == s.requests + [RequestPointerLock(RelockDelayMs)]
            && r.page.transcript == s.page.transcript + ["$ exit", ""]
  {
    assert "$ " + "exit" == "$ exit";
    var t := AppendCLI(s, "$ exit");
    ProcessCommandEffect(t, "exit", clock, joke);
    TerminalProperties.ExitAddsOnlyBlank(t.page.transcript, clock, joke);
    assert t.page.transcript + [""] == s.page.transcript + ["$ exit", ""];
  }

  /** In computer mode, entering `exit` (in any case, with any surrounding
      white space) leaves it, with the delayed lock request, after echoing
      `$ exit` and the blank line. */
  lemma ExitCommandExits(s: RoomState, value: string, clock: string, joke: nat)
    requires Inv(s) && s.state.isUsingComputer
    requires joke < |Jokes|
    requires Normalize(value) == "exit"
    ensures var r := CliKeyDown(s, "Enter", value, clock, joke);
            && !r.state.isUsingComputer && !r.page.cliVisible && r.look.monitorScreen == ScreenOff
            && r.requests == s.requests + [RequestPointerLock(RelockDelayMs)]
            && r.page.transcript == s.page.transcript + ["$ exit", ""]
  {
    ExitLineExits(s, clock, joke);
  }

  /** Outside those triggers the mode is kept: any other key, or Escape
      outside computer mode, only marks the key as held, and gaining the lock
      only records it. */
  lemma NoOtherExit(s: RoomState, code: string)
    requires Inv(s)
    ensures KeyDown(s, code).state.isUsingComputer == (s.state.isUsingComputer && code != "Escape")
    ensures !s.state.isUsingComputer || code != "Escape" ==> KeyDown(s, code) == s.(keys := s.keys[code := true])
    ensures PointerLockChange(s, true) == s.(state := s.state.(isPointerLocked := true))
  {
  }

  /** Clicking the computer releases pointer lock; the resulting
      lock-loss event finds computer mode on and leaves it again at once,
      leaving the banner on the hidden terminal and a delayed lock request. */
  lemma EnteringIsUndoneByOwnLockRelease(s: RoomState, hits: seq<Hit>, phrase: nat)
    requires Inv(s) && phrase < |CatPhrases|
    requires s.state.isPointerLocked && !s.state.isUsingComputer
    requires |hits| > 0 && hits[0].kind == Computer && hits[0].distance < InteractionRange
    ensures var entered := OnClick(s, hits, phrase);
            && entered.state.isUsingComputer
            && entered.requests[|entered.requests| - 1] == ExitPointerLock
    ensures var r := PointerLockChange(OnClick(s, hits, phrase), false);
            && !r.state.isUsingComputer && !r.state.computerOn && !r.state.isPointerLocked
            && r.page.transcript == Banner
            && r.requests == s.requests + [OpenTab(TerminalUrl, "_blank"), ExitPointerLock,
                                          RequestPointerLock(RelockDelayMs)]
  {
  }

  // ---------------------------------------------------------------------
  // The terminal inside the state machine

  /** `processCommand` answers as `Respond` says and plays nothing; `exit`
      also leaves computer mode, and every other command changes nothing
      but the transcript. */
  lemma ProcessCommandEffect(s: RoomState, cmd: string, clock: string, joke: nat)
    requires Inv(s) && joke < |Jokes|
    ensures var r := ProcessCommand(s, cmd, clock, joke);
            && r.page.transcript == Respond(s.page.transcript, cmd, clock, joke)
            && (cmd == "exit" ==> r == ExitComputer(s).(page := ExitComputer(s).page.(transcript := r.page.transcript)))
            && (cmd != "exit" ==> r == s.(page := s.page.(transcript := r.page.transcript)))
  {
    if cmd != "exit" {
      assert Parse(cmd) != Exit by {
        assert Name(Parse(cmd)) == cmd;
      }
    }
  }

  /** Enter appends exactly what `Terminal.Enter` says to the transcript and
      plays the key-press cue; it leaves computer mode only for `exit`. */
  lemma CliEnterEffect(s: RoomState, value: string, clock: string, joke: nat)
    requires Inv(s) && joke < |Jokes|
    ensures var r := CliKeyDown(s, "Enter", value, clock, joke);
            && r.sounds == s.sounds + [Keypress]
            && r.page.transcript == Enter(s.page.transcript, value, clock, joke)
            && r.state.isUsingComputer == (s.state.isUsingComputer && Normalize(value) != "exit")
  {
    var cmd := Normalize(value);
    ProcessCommandEffect(AppendCLI(s, "$ " + cmd), cmd, clock, joke);
  }

  /** Any key other than Enter only plays the key-press cue. */
  lemma CliOtherKeyEffect(s: RoomState, key: string, value: string, clock: string, joke: nat)
    requires Inv(s) && joke < |Jokes|
    requires key != "Enter"
    ensures CliKeyDown(s, key, value, clock, joke) == s.(sounds := s.sounds + [Keypress])
  {
  }

  // ---------------------------------------------------------------------
  // Whole runs

  /** `r` is a successor of `s` as far as the monotone parts go: the
      television stays on, the pet count does not drop, and the sound and
      request logs of `s` are prefixes of those of `r`. */
  predicate Grows(s: RoomState, r: RoomState) {
    && (s.state.tvOn ==> r.state.tvOn)
    && r.state.catPetCount >= s.state.catPetCount
    && s.sounds <= r.sounds
    && s.requests <= r.requests
  }

  lemma ClickGrows(s: RoomState, hits: seq<Hit>, phrase: nat)
    requires Inv(s) && phrase < |CatPhrases|
    ensures Grows(s, OnClick(s, hits, phrase))
  {
    if s.state.isPointerLocked && !s.state.isUsingComputer && Target(hits).Some? {
      var r := OnClick(s, hits, phrase);
      match Target(hits).value {
        case Lamp => assert r == ToggleLamp(s);
        case Tv => assert r == ToggleTV(s);
        case Computer => assert r == EnterComputer(s);
        case Cat => assert r == PetCat(s, phrase);
        case Sofa => assert r == SitOnSofa(s);
      }
    }
  }

  lemma CliKeyDownGrows(s: RoomState, key: string, value: string, clock: string, joke: nat)
    requires Inv(s) && joke < |Jokes|
    ensures Grows(s, CliKeyDown(s, key, value, clock, joke))
  {
    if key == "Enter" {
      var cmd := Normalize(value);
      var t := ProcessCommand(AppendCLI(s, "$ " + cmd), cmd, clock, joke);
      assert Grows(s, t);
    }
  }

  /** One event never switches the television off, never lowers the pet
      count, and only appends to the sound and request logs. */
  lemma StepGrows(s: RoomState, e: Event)
    requires Inv(s) && WellFormed(e)
    ensures Grows(s, Step(s, e))
  {
    match e {
      case CanvasClick(hits, phrase) => ClickGrows(s, hits, phrase);
      case TerminalKeyDown(key, value, clock, joke) => CliKeyDownGrows(s, key, value, clock, joke);
      case _ =>
    }
  }

  /** Along any run of events: the invariant holds (so the channel stays in
      1..5), the television is never switched off again, the pet count never
      drops, and the sound and request logs only grow. */
  lemma {:induction false} RunKeepsPromises(s: RoomState, es: seq<Event>)
    requires Inv(s) && AllWellFormed(es)
    ensures 1 <= Run(s, es).state.tvChannel <= 5
    ensures Grows(s, Run(s, es))
    decreases |es|
  {
    if es != [] {
      var t := Step(s, es[0]);
      StepGrows(s, es[0]);
      RunKeepsPromises(t, es[1..]);
      assert Run(t, es[1..]) == Run(s, es);
    }
  }
}

=== FILE: scene.dfy ===
/** The page's mutable interaction state as an object whose fields are the
    groups of `RoomState` (the `state` record, the held keys, the view, the
    lights and materials, the page, the effect logs), with one method per
    handler doing what index.js does step by step. Every method leaves the
    object in exactly the state the corresponding transition of `Interaction`
    computes from the old one, and every handler method keeps `Valid()`; the
    helpers `UpdateTV` and `AppendCLI` run in the middle of a handler, where
    the invariant may be broken for a moment, and do not promise it. */
module Scene {
  import opened SceneTypes
  import opened Terminal
  import Interaction

  class Room {
    /** The `state` record (index.js:2-12). */
    var state: Flags
    /** The held-keys table (index.js:375). */
    var keys: map<string, bool>
    var view: View
    var look: Look
    var page: Page
    // Effects handed to the host.
    var sounds: seq<Cue>
    var requests: seq<HostRequest>

    /** The object's value as a `RoomState`. */
    function State(): RoomState
      reads this
    {
      RoomState(state, keys, view, look, page, sounds, requests)
    }

    predicate Valid()
      reads this
    {
      Interaction.Inv(State())
    }

    /** The page as loaded. */
    constructor ()
      ensures Valid() && State() == Interaction.Initial()
    {
      state := Flags(false, false, 1, false, false, false, false, 0);
      keys := map[];
      view := View(0.0, 0.0, StartPosition, Level);
      look := Look(0.0, BulbOffColor, AmbientLampOff, 0.0, ScreenOff, ScreenOff);
      page := Page([], false, "");
      sounds, requests := [], [];
    }

    // -------------------------------------------------------------------
    // Object handlers

    method ToggleLamp()
      requires Valid()
      modifies this
      ensures State() == Interaction.ToggleLamp(old(State()))
      ensures Valid()
    {
      sounds := sounds + [Click];
      var on := !state.lampOn;
      state := state.(lampOn := on);
      look := look.(lampIntensity := Interaction.LampLevel(on), bulbColor := Interaction.BulbColor(on),
                    ambientIntensity := Interaction.AmbientLevel(on));
    }

    method ToggleTV()
      requires Valid()
      modifies this
      ensures State() == Interaction.ToggleTV(old(State()))
      ensures Valid()
    {
      if !state.tvOn {
        state := state.(tvOn := true);
        sounds := sounds + [Click];
      } else {
        state := state.(tvChannel := Interaction.NextChannel(state.tvChannel));
        sounds := sounds + [Static];
      }
      UpdateTV();
    }

    method UpdateTV()
      requires 1 <= state.tvChannel <= ChannelCount
      modifies this
      ensures State() == Interaction.UpdateTV(old(State()))
    {
      if state.tvOn {
        look := look.(tvScreen := Basic(Interaction.ChannelColor(state.tvChannel)), tvIntensity := TvOnIntensity);
      } else {
        look := look.(tvScreen := ScreenOff, tvIntensity := 0.0);
      }
    }

    /** `phrase` is the random index into the bubble phrases. */
    method PetCat(phrase: nat)
      requires Valid() && phrase < |CatPhrases|
      modifies this
      ensures State() == Interaction.PetCat(old(State()), phrase)
      ensures Valid()
    {
      state := state.(catPetCount := state.catPetCount + 1);
      var cue := if state.catPetCount % 3 == 0 then Purr else Meow;
      sounds := sounds + [cue];
      page := page.(catBubble := CatPhrases[phrase]);
    }

    method SitOnSofa()
      requires Valid()
      modifies this
      ensures State() == Interaction.SitOnSofa(old(State()))
      ensures Valid()
    {
      state := state.(isSitting := !state.isSitting);
      if state.isSitting {
        view := View(0.0, 0.0, SeatPosition, Level);
      }
    }

    // -------------------------------------------------------------------
    // Computer mode and the terminal

    method EnterComputer()
      requires Valid()
      modifies this
      ensures State() == Interaction.EnterComputer(old(State()))
      ensures Valid()
    {
      state := state.(isUsingComputer := true, computerOn := true);
      sounds := sounds + [Click];
      requests := requests + [OpenTab(TerminalUrl, "_blank")];
      look := look.(monitorScreen := Basic(MonitorOnColor));
      page := page.(cliVisible := true, transcript := []);
      AppendCLI(Banner[0]);
      AppendCLI(Banner[1]);
      AppendCLI(Banner[2]);
      requests := requests + [ExitPointerLock];
    }

    method ExitComputer()
      requires Valid()
      modifies this
      ensures State() == Interaction.ExitComputer(old(State()))
      ensures Valid()
    {
      state := state.(isUsingComputer := false);
      page := page.(cliVisible := false);
      look := look.(monitorScreen := ScreenOff);
      state := state.(computerOn := false);
      requests := requests + [RequestPointerLock(RelockDelayMs)];
    }

    method AppendCLI(text: string)
      modifies this
      ensures State() == Interaction.AppendCLI(old(State()), text)
    {
      page := page.(transcript := page.transcript + [text]);
    }

    /** The terminal input's keydown listener; `value` is the input box's
        content, `clock` the host's time of day, `joke` the random joke index. */
    method CliKeyDown(key: string, value: string, clock: string, joke: nat)
      requires Valid() && joke < |Jokes|
      modifies this
      ensures State() == Interaction.CliKeyDown(old(State()), key, value, clock, joke)
      ensures Valid()
    {
      ghost var s0 := State();
      if key == "Enter" {
        var cmd := Normalize(value);
        AppendCLI("$ " + cmd);
        ProcessCommand(cmd, clock, joke);
      }
      ghost var s1 := State();
      sounds := sounds + [Keypress];
      assert State() == s1.(sounds := s1.sounds + [Keypress]);
    }

    method ProcessCommand(cmd: string, clock: string, joke: nat)
      requires Valid() && joke < |Jokes|
      modifies this
      ensures State() == Interaction.ProcessCommand(old(State()), cmd, clock, joke)
      ensures Valid()
    {
      var command := Parse(cmd);
      if command == Clear {
        page := page.(transcript := []);
      } else if command == Exit {
        ExitComputer();
      } else {
        page := page.(transcript := page.transcript + Reply(command, clock, joke));
      }
      AppendCLI("");
    }

    // -------------------------------------------------------------------
    // Document and canvas listeners

    method KeyDown(code: string)
      requires Valid()
      modifies this
      ensures State() == Interaction.KeyDown(old(State()), code)
      ensures Valid()
    {
      keys := keys[code := true];
      if state.isUsingComputer && code == "Escape" {
        ExitComputer();
      }
    }

    method KeyUp(code: string)
      requires Valid()
      modifies this
      ensures State() == Interaction.KeyUp(old(State()), code)
      ensures Valid()
    {
      keys := keys[code := false];
    }

    method StartButton()
      requires Valid()
      modifies this
      ensures State() == Interaction.StartButton(old(State()))
      ensures Valid()
    {
      requests := requests + [RequestPointerLock(0)];
    }

    /** `locked` is whether the canvas holds pointer lock after the change. */
    method PointerLockChange(locked: bool)
      requires Valid()
      modifies this
      ensures State() == Interaction.PointerLockChange(old(State()), locked)
      ensures Valid()
    {
      state := state.(isPointerLocked := locked);
      if !state.isPointerLocked && state.isUsingComputer {
        ExitComputer();
      }
    }

    /** `hits` is the raycaster's result, nearest first; `phrase` the random
        bubble phrase index used if the cat is petted. */
    method OnClick(hits: seq<Hit>, phrase: nat)
      requires Valid() && phrase < |CatPhrases|
      modifies this
      ensures State() == Interaction.OnClick(old(State()), hits, phrase)
      ensures Valid()
    {
      if !state.isPointerLocked || state.isUsingComputer {
        return;
      }
      var target := Interaction.Target(hits);
      if target.None? {
        return;
      }
      match target.value {
        case Lamp => ToggleLamp();
        case Tv => ToggleTV();
        case Computer => EnterComputer();
        case Cat => PetCat(phrase);
        case Sofa => SitOnSofa();
      }
    }
  }
}

=== FILE: terminal.dfy ===
/** The toy terminal: how an entered line is normalised, which command it
    names, and what each command writes to the transcript. */
module Terminal {

  // ---------------------------------------------------------------------
  // Normalisation: `value.trim().toLowerCase()`

  /** The code points JavaScript's `String.prototype.trim` removes: the
      ECMAScript WhiteSpace characters (tab, vertical tab, form feed, space,
      no-break space, the byte order mark and the space separators) and the
      LineTerminator characters. */
  predicate IsSpace(c: char) {
    c == '\t' || c == '\n' || c == '\U{B}' || c == '\U{C}' || c == '\r'
    || c == ' ' || c == '\U{A0}' || c == '\U{1680}'
    || ('\U{2000}' <= c <= '\U{200A}')
    || c == '\U{2028}' || c == '\U{2029}' || c == '\U{202F}' || c == '\U{205F}'
    || c == '\U{3000}' || c == '\U{FEFF}'
  }

  predicate AllSpace(s: string) {
    forall i :: 0 <= i < |s| ==> IsSpace(s[i])
  }

  /** Drops leading white space: the result is a suffix of `s`, everything cut
      off is white space, and the result does not start with white space. */
  function TrimStart(s: string): (r: string)
    ensures |r| <= |s| && r == s[|s| - |r|..]
    ensures AllSpace(s[..|s| - |r|])
    ensures r == [] || !IsSpace(r[0])
  {
    if s != [] && IsSpace(s[0]) then
      var r := TrimStart(s[1..]);
      assert s[..|s| - |r|] == [s[0]] + s[1..][..|s| - 1 - |r|];
      r
    else
      s
  }

  /** Drops trailing white space: the result is a prefix of `s`, everything cut
      off is white space, and the result does not end with white space. */
  function TrimEnd(s: string): (r: string)
    ensures |r| <= |s| && r == s[..|r|]
    ensures AllSpace(s[|r|..])
    ensures r == [] || !IsSpace(r[|r| - 1])
  {
    if s != [] && IsSpace(s[|s| - 1]) then
      var r := TrimEnd(s[..|s| - 1]);
      assert s[|r|..] == s[..|s| - 1][|r|..] + [s[|s| - 1]];
      r
    else
      s
  }

  /** `String.prototype.trim`: what `TrimStart` leaves, with its trailing white
      space cut off; the result neither starts nor ends with white space. */
  function Trim(s: string): (r: string)
    ensures var t := TrimStart(s); |r| <= |t| && r == t[..|r|] && AllSpace(t[|r|..])
    ensures r == [] || (!IsSpace(r[0]) && !IsSpace(r[|r| - 1]))
  {
    var t := TrimStart(s);
    var r := TrimEnd(t);
    assert r != [] ==> r[0] == t[0];
    r
  }

  predicate IsUpper(c: char) {
    'A' <= c <= 'Z'
  }

  /** KELVIN SIGN, whose lower case is the ASCII letter `k`. */
  const Kelvin: char := '\U{212A}'

  function LowerChar(c: char): char {
    if IsUpper(c) then (c as int + 32) as char
    else if c == Kelvin then 'k'
    else c
  }

  /** `String.prototype.toLowerCase` for the characters whose lower case is an
      ASCII letter: same length, no upper-case ASCII letter and no Kelvin sign is
      left, each upper-case letter becomes its lower-case partner, the Kelvin
      sign becomes `k`, and every other character is kept. */
  function Lower(s: string): (r: string)
    ensures |r| == |s|
    ensures forall i :: 0 <= i < |s| ==> r[i] == LowerChar(s[i])
    ensures forall i :: 0 <= i < |s| ==> !IsUpper(r[i]) && r[i] != Kelvin
    ensures forall i :: 0 <= i < |s| ==>
              if IsUpper(s[i]) then r[i] as int == s[i] as int + 32
              else if s[i] == Kelvin then r[i] == 'k'
              else r[i] == s[i]
  {
    if s == [] then [] else [LowerChar(s[0])] + Lower(s[1..])
  }

  /** What the Enter handler dispatches on (index.js:574): with no white space
      at either end, no letter A-Z and no Kelvin sign, and (with this model's
      lower-casing) never longer than the input. */
  function Normalize(value: string): (r: string)
    ensures |r| <= |value|
    ensures r == [] || (!IsSpace(r[0]) && !IsSpace(r[|r| - 1]))
    ensures forall i :: 0 <= i < |r| ==> !IsUpper(r[i]) && r[i] != Kelvin
  {
    var t := Trim(value);
    var r := Lower(t);
    if r == [] then r
    else
      LowerCharKeepsSpace(t[0]);
      LowerCharKeepsSpace(t[|t| - 1]);
      r
  }

  /** Lower-casing never turns a character into white space or back. */
  lemma LowerCharKeepsSpace(c: char)
    ensures IsSpace(LowerChar(c)) == IsSpace(c)
  {
  }

  // ---------------------------------------------------------------------
  // The command table (index.js:582-629)

  datatype Command = Help | Hello | CatArt | Time | Clear | Joke | Exit | Blank | Unknown(text: string)

  /** The text that selects each command. */
  function Name(c: Command): string {
    match c
    case Help => "help"
    case Hello => "hello"
    case CatArt => "cat"
    case Time => "time"
    case Clear => "clear"
    case Joke => "joke"
    case Exit => "exit"
    case Blank => ""
    case Unknown(t) => t
  }

  const CommandNames: set<string> := {"help", "hello", "cat", "time", "clear", "joke", "exit", ""}

  /** The `switch (cmd)`: the command whose name is `cmd`, and `Unknown` exactly
      when `cmd` names none of the table's entries. */
  function Parse(cmd: string): (c: Command)
    ensures Name(c) == cmd
    ensures c.Unknown? <==> cmd !in CommandNames
  {
    if cmd == "help" then Help
    else if cmd == "hello" then Hello
    else if cmd == "cat" then CatArt
    else if cmd == "time" then Time
    else if cmd == "clear" then Clear
    else if cmd == "joke" then Joke
    else if cmd == "exit" then Exit
    else if cmd == "" then Blank
    else Unknown(cmd)
  }

  const HelpHint: string := "Type \"help\" for available commands."

  const Banner: seq<string> := ["OS v1.0 - Welcome!", HelpHint, ""]

  const HelpLines: seq<string> := [
    "Available commands:",
    "  help  - Show this help",
    "  hello - Say hello",
    "  cat   - Show ASCII cat",
    "  time  - Show current time",
    "  clear - Clear screen",
    "  joke  - Tell a joke",
    "  exit  - Exit computer"
  ]

  const Greeting: string := "Hello, cozy human! \U{1F3E0}"

  const CatArtLines: seq<string> := [
    "  /\\_/\\  ",
    " ( o.o ) ",
    "  > ^ <  ",
    " /|   |\\",
    "(_|   |_)"
  ]

  const Jokes: seq<string> := [
    "Why do programmers prefer dark mode? Because light attracts bugs!",
    "A cat walked into a bar... and got stuck on the keyboard. asdfghjkl;",
    "Why did the lamp break up with the sofa? It needed more space!",
    "What do you call a cat that sits on a computer? A lap-top!"
  ]

  /** The lines a command appends before the trailing blank line. `clock` is
      the host's `toLocaleTimeString()`; `joke` is the random pick among the
      jokes. */
  function Reply(c: Command, clock: string, joke: nat): (r: seq<string>)
    requires joke < |Jokes|
    ensures r == [] <==> (c == Clear || c == Exit || c == Blank)
  {
    match c
    case Help => HelpLines
    case Hello => [Greeting]
    case CatArt => CatArtLines
    case Time => ["Current time: " + clock]
    case Joke => [Jokes[joke]]
    case Unknown(t) => ["Unknown command: " + t, HelpHint]
    case Clear => []
    case Exit => []
    case Blank => []
  }

  /** The transcript after `processCommand(cmd)`: `clear` empties it, every
      other command adds its reply, and then one blank line is appended in
      every case. */
  function Respond(transcript: seq<string>, cmd: string, clock: string, joke: nat): (r: seq<string>)
    requires joke < |Jokes|
    ensures |r| > 0 && r[|r| - 1] == ""
    ensures cmd != "clear" ==> transcript < r
  {
    var c := Parse(cmd);
    (if c == Clear then [] else transcript + Reply(c, clock, joke)) + [""]
  }

  /** The transcript after pressing Enter with `value` in the input box: the
      normalised command is echoed after `$ `, then answered. */
  function Enter(transcript: seq<string>, value: string, clock: string, joke: nat): (r: seq<string>)
    requires joke < |Jokes|
    ensures |r| > 0 && r[|r| - 1] == ""
  {
    var cmd := Normalize(value);
    Respond(transcript + ["$ " + cmd], cmd, clock, joke)
  }
}

=== FILE: terminal_properties.dfy ===
/** What the terminal promises: normalisation is idempotent and ignores
    surrounding white space and letter case, and every command leaves the
    transcript ending in one blank line. */
module TerminalProperties {
  import opened Terminal

  lemma {:induction false} LowerIdempotent(s: string)
    ensures Lower(Lower(s)) == Lower(s)
  {
    var l := Lower(s);
    var ll := Lower(l);
    forall i | 0 <= i < |s| ensures ll[i] == l[i] {
      assert !IsUpper(l[i]);
    }
  }

  /** A string that neither starts nor ends with white space is its own trim. */
  lemma {:induction false} TrimOfTrimmed(s: string)
    requires s == [] || (!IsSpace(s[0]) && !IsSpace(s[|s| - 1]))
    ensures Trim(s) == s
  {
    assert TrimStart(s) == s;
    assert TrimEnd(s) == s;
  }

  /** Normalising twice is normalising once. */
  lemma {:induction false} NormalizeIdempotent(value: string)
    ensures Normalize(Normalize(value)) == Normalize(value)
  {
    var t := Trim(value);
    var n := Lower(t);
    if n != [] {
      LowerCharKeepsSpace(t[0]);
      LowerCharKeepsSpace(t[|t| - 1]);
      assert n[0] == LowerChar(t[0]);
      assert n[|n| - 1] == LowerChar(t[|t| - 1]);
    }
    TrimOfTrimmed(n);
    LowerIdempotent(t);
  }

  lemma ShoutedHelpTrimsStart()
    ensures TrimStart("  HELP  ") == "HELP  "
  {
    var s := "  HELP  ";
    assert IsSpace(s[0]) && s[1..] == " HELP  ";
    assert IsSpace(s[1]) && s[2..] == "HELP  ";
    assert !IsSpace(s[2]);
  }

  lemma ShoutedHelpTrimsEnd()
    ensures TrimEnd("HELP  ") == "HELP"
  {
  }

  lemma ShoutedHelpLowers()
    ensures Lower("HELP") == "help"
  {
  }

  lemma ShoutedHelpNormalizes()
    ensures Normalize("  HELP  ") == "help"
  {
    ShoutedHelpTrimsStart();
    ShoutedHelpTrimsEnd();
    ShoutedHelpLowers();
  }

  lemma HelpTrims()
    ensures Trim("help") == "help"
  {
    assert TrimStart("help") == "help";
    assert TrimEnd("help") == "help";
  }

  lemma HelpLowers()
    ensures Lower("help") == "help"
  {
  }

  lemma HelpIsNormal()
    ensures Normalize("help") == "help"
  {
    HelpTrims();
    HelpLowers();
  }

  /** The Enter handler sees the input only through its normal form. */
  lemma EnterSeesNormalForm(transcript: seq<string>, v: string, w: string, clock: string, joke: nat)
    requires joke < |Jokes|
    requires Normalize(v) == Normalize(w)
    ensures Enter(transcript, v, clock, joke) == Enter(transcript, w, clock, joke)
  {
  }

  /** Unless the line is `clear`, Enter keeps the old transcript and echoes
      the normalised line after `$ ` right below it, and the reply comes after
      that. */
  lemma EnterEchoes(transcript: seq<string>, value: string, clock: string, joke: nat)
    requires joke < |Jokes|
    requires Normalize(value) != "clear"
    ensures transcript + ["$ " + Normalize(value)] < Enter(transcript, value, clock, joke)
  {
    var cmd := Normalize(value);
    EchoKept(transcript + ["$ " + cmd], cmd, clock, joke);
  }

  /** Every command but `clear` keeps everything above it and writes at least
      the blank line. */
  lemma EchoKept(above: seq<string>, cmd: string, clock: string, joke: nat)
    requires joke < |Jokes|
    requires cmd != "clear"
    ensures above < Respond(above, cmd, clock, joke)
  {
    assert Parse(cmd) != Clear by {
      assert Name(Parse(cmd)) == cmd;
    }
    var reply := Reply(Parse(cmd), clock, joke);
    assert Respond(above, cmd, clock, joke) == above + (reply + [""]);
  }

  /** Entering `  HELP  ` does exactly what entering `help` does. */
  lemma ShoutedHelpIsHelp(transcript: seq<string>, clock: string, joke: nat)
    requires joke < |Jokes|
    ensures Enter(transcript, "  HELP  ", clock, joke) == Enter(transcript, "help", clock, joke)
  {
    ShoutedHelpNormalizes();
    HelpIsNormal();
    EnterSeesNormalForm(transcript, "  HELP  ", "help", clock, joke);
  }

  /** `help` echoes `$ help`, lists the commands and adds the blank line. */
  lemma HelpListsCommands(transcript: seq<string>, clock: string, joke: nat)
    requires joke < |Jokes|
    ensures Enter(transcript, "help", clock, joke) == transcript + ["$ help"] + HelpLines + [""]
  {
    HelpIsNormal();
    HelpReply(transcript, clock, joke);
  }

  /** After its echo, `help` lists the commands and adds the blank line. */
  lemma HelpReply(transcript: seq<string>, clock: string, joke: nat)
    requires joke < |Jokes|
    ensures Respond(transcript + ["$ " + "help"], "help", clock, joke) == transcript + ["$ help"] + HelpLines + [""]
  {
    assert "$ " + "help" == "$ help";
  }

  lemma KelvinJokeTrims()
    ensures Trim("JO\U{212A}E") == "JO\U{212A}E"
  {
    assert TrimStart("JO\U{212A}E") == "JO\U{212A}E";
    assert TrimEnd("JO\U{212A}E") == "JO\U{212A}E";
  }

  lemma KelvinJokeLowers()
    ensures Lower("JO\U{212A}E") == "joke"
  {
    var l := Lower("JO\U{212A}E");
    assert l[0] == 'j' && l[1] == 'o' && l[2] == 'k' && l[3] == 'e';
  }

  /** The Kelvin sign lower-cases to `k`, so `JO` + Kelvin + `E` is `joke`. */
  lemma KelvinJokeNormalizes()
    ensures Normalize("JO\U{212A}E") == "joke"
  {
    KelvinJokeTrims();
    KelvinJokeLowers();
  }

  /** Entering `JO` + Kelvin + `E` does exactly what entering `joke` does. */
  lemma KelvinJokeIsJoke(transcript: seq<string>, clock: string, joke: nat)
    requires joke < |Jokes|
    ensures Enter(transcript, "JO\U{212A}E", clock, joke) == Enter(transcript, "joke", clock, joke)
  {
    KelvinJokeNormalizes();
    JokeIsNormal();
    EnterSeesNormalForm(transcript, "JO\U{212A}E", "joke", clock, joke);
  }

  lemma JokeIsNormal()
    ensures Normalize("joke") == "joke"
  {
    JokeTrims();
    JokeLowers();
  }

  lemma JokeTrims()
    ensures Trim("joke") == "joke"
  {
    assert TrimStart("joke") == "joke";
    assert TrimEnd("joke") == "joke";
  }

  lemma JokeLowers()
    ensures Lower("joke") == "joke"
  {
  }

  /** `Name` and `Parse` are inverse on the command table. */
  lemma ParseName(c: Command)
    requires c.Unknown? ==> c.text !in CommandNames
    ensures Parse(Name(c)) == c
  {
  }

  /** `exit` writes nothing but the blank line. */
  lemma ExitAddsOnlyBlank(transcript: seq<string>, clock: string, joke: nat)
    requires joke < |Jokes|
    ensures Respond(transcript, "exit", clock, joke) == transcript + [""]
  {
  }

  /** `clear` leaves exactly one blank line, whatever came before. */
  lemma ClearReply(transcript: seq<string>, clock: string, joke: nat)
    requires joke < |Jokes|
    ensures Respond(transcript, "clear", clock, joke) == [""]
  {
  }

  /** Entering `clear` (in any case, with any surrounding white space) leaves
      exactly one blank line: even the echo of the command is gone. */
  lemma ClearLeavesOneBlank(transcript: seq<string>, value: string, clock: string, joke: nat)
    requires joke < |Jokes|
    requires Normalize(value) == "clear"
    ensures Enter(transcript, value, clock, joke) == [""]
  {
    ClearReply(transcript + ["$ clear"], clock, joke);
  }

  lemma {:induction false} TrimStartOfSpace(s: string)
    requires AllSpace(s)
    ensures TrimStart(s) == []
  {
    if s != [] {
      TrimStartOfSpace(s[1..]);
    }
  }

  /** The empty line is echoed as `$ ` and answered with the blank line. */
  lemma BlankLineEchoes(transcript: seq<string>, clock: string, joke: nat)
    requires joke < |Jokes|
    ensures Respond(transcript + ["$ " + ""], "", clock, joke) == transcript + ["$ ", ""]
  {
    assert "$ " + "" == "$ ";
  }

  /** Empty (or all white-space) input echoes `$ ` and adds only the blank line. */
  lemma EmptyInputAddsOnlyBlank(transcript: seq<string>, value: string, clock: string, joke: nat)
    requires joke < |Jokes|
    requires AllSpace(value)
    ensures Enter(transcript, value, clock, joke) == transcript + ["$ ", ""]
  {
    TrimStartOfSpace(value);
    assert Normalize(value) == "";
    BlankLineEchoes(transcript, clock, joke);
  }

  /** Anything outside the table is reported, followed by the help hint. */
  lemma UnknownCommandIsReported(transcript: seq<string>, cmd: string, clock: string, joke: nat)
    requires joke < |Jokes|
    requires cmd !in CommandNames
    ensures Respond(transcript, cmd, clock, joke)
            == transcript + ["Unknown command: " + cmd, HelpHint, ""]
  {
  }
}

=== FILE: transitions.dfy ===
/** The interaction state machine of index.js as pure transitions on
    `RoomState`: one function per handler, the object invariant `Inv`, and
    `Step`/`Run` over the closed set of input events. */
module Interaction {
  import opened SceneTypes
  import opened Terminal

  // ---------------------------------------------------------------------
  // Derived light levels and materials

  function LampLevel(on: bool): real { if on then LampOnIntensity else 0.0 }
  function BulbColor(on: bool): int { if on then BulbOnColor else BulbOffColor }
  function AmbientLevel(on: bool): real { if on then AmbientLampOn else AmbientLampOff }
  function TvLevel(on: bool): real { if on then TvOnIntensity else 0.0 }

  /** The colour table lookup `colors[tvChannel - 1]`. */
  function ChannelColor(channel: int): int
    requires 1 <= channel <= ChannelCount
  {
    ChannelColors[channel - 1]
  }

  function TvMaterial(on: bool, channel: int): Material
    requires 1 <= channel <= ChannelCount
  {
    if on then Basic(ChannelColor(channel)) else ScreenOff
  }

  function MonitorMaterial(on: bool): Material { if on then Basic(MonitorOnColor) else ScreenOff }

  /** What every reachable state satisfies: the channel is one of the five,
      and each light level, colour and material agrees with the flag that the
      handler last set it from. */
  predicate Inv(s: RoomState) {
    && 1 <= s.state.tvChannel <= ChannelCount
    && s.look.lampIntensity == LampLevel(s.state.lampOn)
    && s.look.bulbColor == BulbColor(s.state.lampOn)
    && s.look.ambientIntensity == AmbientLevel(s.state.lampOn)
    && s.look.tvIntensity == TvLevel(s.state.tvOn)
    && s.look.tvScreen == TvMaterial(s.state.tvOn, s.state.tvChannel)
    && s.state.computerOn == s.state.isUsingComputer
    && s.page.cliVisible == s.state.isUsingComputer
    && s.look.monitorScreen == MonitorMaterial(s.state.isUsingComputer)
  }

  /** The page as loaded (index.js:2-12, 79-104, 244, 375-377). */
  function Initial(): (s: RoomState)
    ensures Inv(s)
  {
    RoomState(
      state := Flags(lampOn := false, tvOn := false, tvChannel := 1, computerOn := false,
                     isPointerLocked := false, isUsingComputer := false, isSitting := false,
                     catPetCount := 0),
      keys := map[],
      view := View(yaw := 0.0, pitch := 0.0, position := StartPosition, rotation := Level),
      look := Look(lampIntensity := 0.0, bulbColor := BulbOffColor, ambientIntensity := AmbientLampOff,
                   tvIntensity := 0.0, tvScreen := ScreenOff, monitorScreen := ScreenOff),
      page := Page(transcript := [], cliVisible := false, catBubble := ""),
      sounds := [], requests := [])
  }

  // ---------------------------------------------------------------------
  // Hit selection (index.js:422-437)

  /** `checkInteraction`: the raycaster lists hits nearest first; the nearest
      one is the target when it is nearer than the interaction range. */
  function Target(hits: seq<Hit>): (r: Option<Kind>)
    ensures r.Some? ==> exists i :: 0 <= i < |hits| && hits[i].kind == r.value
                                   && hits[i].distance < InteractionRange
    ensures (forall i :: 0 <= i < |hits| ==> hits[i].distance >= InteractionRange) ==> r.None?
  {
    if |hits| > 0 && hits[0].distance < InteractionRange then Some(hits[0].kind) else None
  }

  // ---------------------------------------------------------------------
  // Object handlers (index.js:467-527)

  /** `toggleLamp`. */
  function ToggleLamp(s: RoomState): (r: RoomState)
    requires Inv(s)
    ensures Inv(r)
  {
    var on := !s.state.lampOn;
    s.(sounds := s.sounds + [Click], state := s.state.(lampOn := on),
       look := s.look.(lampIntensity := LampLevel(on), bulbColor := BulbColor(on),
                       ambientIntensity := AmbientLevel(on)))
  }

  /** JavaScript's `%`: the remainder of division truncated toward zero, whose
      sign follows the dividend. */
  function JsRem(a: int, n: int): (r: int)
    requires n > 0
    ensures -n < r < n
    ensures a >= 0 ==> r >= 0
    ensures a <= 0 ==> r <= 0
    ensures exists q :: a == n * q + r
  {
    if a >= 0 then
      assert a == n * (a / n) + a % n;
      a % n
    else
      var m := -a;
      assert m == n * (m / n) + m % n;
      assert a == n * -(m / n) + -(m % n);
      -(m % n)
  }

  /** `(tvChannel % 5) + 1`. */
  function NextChannel(c: int): (r: int)
    ensures c >= 0 ==> 1 <= r <= ChannelCount
  {
    JsRem(c, ChannelCount) + 1
  }

  /** `updateTV`: the screen and the TV light follow `tvOn` and the channel. */
  function UpdateTV(s: RoomState): (r: RoomState)
    requires 1 <= s.state.tvChannel <= ChannelCount
    ensures r.look.tvScreen.Basic? <==> s.state.tvOn
    ensures r.look.tvScreen.Basic? ==> r.look.tvScreen.color in ChannelColors
    ensures r.look.(tvScreen := s.look.tvScreen, tvIntensity := s.look.tvIntensity) == s.look
    ensures r.(look := s.look) == s
  {
    s.(look := s.look.(tvScreen := TvMaterial(s.state.tvOn, s.state.tvChannel),
                       tvIntensity := TvLevel(s.state.tvOn)))
  }

  /** `toggleTV`: the first press switches the set on, later presses change
      the channel. */
  function ToggleTV(s: RoomState): (r: RoomState)
    requires Inv(s)
    ensures Inv(r)
  {
    var t :=
      if !s.state.tvOn then s.(state := s.state.(tvOn := true), sounds := s.sounds + [Click])
      else s.(state := s.state.(tvChannel := NextChannel(s.state.tvChannel)),
              sounds := s.sounds + [Static]);
    UpdateTV(t)
  }

  /** The cue a pet plays once the count has reached `count`. */
  function PetCue(count: nat): (c: Cue)
    ensures c == Purr || c == Meow
  {
    if count % 3 == 0 then Purr else Meow
  }

  /** `petCat`, with `phrase` the random pick among the bubble phrases. */
  function PetCat(s: RoomState, phrase: nat): (r: RoomState)
    requires Inv(s)
    requires phrase < |CatPhrases|
    ensures Inv(r)
  {
    var count := s.state.catPetCount + 1;
    s.(state := s.state.(catPetCount := count),
       sounds := s.sounds + [PetCue(count)],
       page := s.page.(catBubble := CatPhrases[phrase]))
  }

  /** `sitOnSofa`. */
  function SitOnSofa(s: RoomState): (r: RoomState)
    requires Inv(s)
    ensures Inv(r)
  {
    var sitting := !s.state.isSitting;
    if sitting then
      s.(state := s.state.(isSitting := sitting),
         view := View(yaw := 0.0, pitch := 0.0, position := SeatPosition, rotation := Level))
    else
      s.(state := s.state.(isSitting := sitting))
  }

  // ---------------------------------------------------------------------
  // Computer mode and the terminal (index.js:534-629)

  /** `appendCLI`: exactly one line, the text, is added to the transcript. */
  function AppendCLI(s: RoomState, line: string): (r: RoomState)
    ensures Inv(s) ==> Inv(r)
    ensures |r.page.transcript| == |s.page.transcript| + 1
    ensures s.page.transcript < r.page.transcript
    ensures r.page.transcript[|r.page.transcript| - 1] == line
    ensures r.(page := s.page) == s && r.page.(transcript := s.page.transcript) == s.page
  {
    s.(page := s.page.(transcript := s.page.transcript + [line]))
  }

  /** `enterComputer`: the terminal opens with the banner, a tab is opened and
      pointer lock is released. */
  function EnterComputer(s: RoomState): (r: RoomState)
    requires Inv(s)
    ensures Inv(r)
  {
    s.(state := s.state.(isUsingComputer := true, computerOn := true),
       sounds := s.sounds + [Click],
       look := s.look.(monitorScreen := MonitorMaterial(true)),
       page := s.page.(cliVisible := true, transcript := Banner),
       requests := s.requests + [OpenTab(TerminalUrl, "_blank"), ExitPointerLock])
  }

  /** `exitComputer`: the terminal closes and pointer lock is requested again
      after a short delay. */
  function ExitComputer(s: RoomState): (r: RoomState)
    requires Inv(s)
    ensures Inv(r)
  {
    s.(state := s.state.(isUsingComputer := false, computerOn := false),
       page := s.page.(cliVisible := false),
       look := s.look.(monitorScreen := MonitorMaterial(false)),
       requests := s.requests + [RequestPointerLock(RelockDelayMs)])
  }

  /** `processCommand`: `exit` leaves computer mode; the transcript is answered
      as `Respond` says. */
  function ProcessCommand(s: RoomState, cmd: string, clock: string, joke: nat): (r: RoomState)
    requires Inv(s)
    requires joke < |Jokes|
    ensures Inv(r)
  {
    var t := if Parse(cmd) == Exit then ExitComputer(s) else s;
    t.(page := t.page.(transcript := Respond(s.page.transcript, cmd, clock, joke)))
  }

  /** The terminal input's keydown listener: Enter echoes and runs the
      normalised line; every key plays the key-press cue. */
  function CliKeyDown(s: RoomState, key: string, value: string, clock: string, joke: nat): (r: RoomState)
    requires Inv(s)
    requires joke < |Jokes|
    ensures Inv(r)
  {
    var t :=
      if key == "Enter" then
        var cmd := Normalize(value);
        ProcessCommand(AppendCLI(s, "$ " + cmd), cmd, clock, joke)
      else s;
    t.(sounds := t.sounds + [Keypress])
  }

  // ---------------------------------------------------------------------
  // Document listeners (index.js:379-388, 404-415, 440-465)

  /** The document keydown listener: the key is held, and Escape leaves
      computer mode. */
  function KeyDown(s: RoomState, code: string): (r: RoomState)
    requires Inv(s)
    ensures Inv(r)
  {
    var t := s.(keys := s.keys[code := true]);
    if t.state.isUsingComputer && code == "Escape" then ExitComputer(t) else t
  }

  /** The document keyup listener. */
  function KeyUp(s: RoomState, code: string): (r: RoomState)
    requires Inv(s)
    ensures Inv(r)
  {
    s.(keys := s.keys[code := false])
  }

  /** The start button: asks the host for pointer lock. */
  function StartButton(s: RoomState): (r: RoomState)
    requires Inv(s)
    ensures Inv(r)
  {
    s.(requests := s.requests + [RequestPointerLock(0)])
  }

  /** The `pointerlockchange` listener; `locked` is whether the canvas now
      holds the lock. Losing it in computer mode leaves computer mode. */
  function PointerLockChange(s: RoomState, locked: bool): (r: RoomState)
    requires Inv(s)
    ensures Inv(r)
  {
    var t := s.(state := s.state.(isPointerLocked := locked));
    if !t.state.isPointerLocked && t.state.isUsingComputer then ExitComputer(t) else t
  }

  /** The `switch (type)` of the click listener. */
  function Handle(s: RoomState, k: Kind, phrase: nat): (r: RoomState)
    requires Inv(s)
    requires phrase < |CatPhrases|
    ensures Inv(r)
  {
    match k
    case Lamp => ToggleLamp(s)
    case Tv => ToggleTV(s)
    case Computer => EnterComputer(s)
    case Cat => PetCat(s, phrase)
    case Sofa => SitOnSofa(s)
  }

  /** The canvas click listener: only while pointer-locked outside computer
      mode, and only when a target is in range. */
  function OnClick(s: RoomState, hits: seq<Hit>, phrase: nat): (r: RoomState)
    requires Inv(s)
    requires phrase < |CatPhrases|
    ensures Inv(r)
  {
    if !s.state.isPointerLocked || s.state.isUsingComputer then s
    else
      match Target(hits)
      case None => s
      case Some(k) => Handle(s, k, phrase)
  }

  // ---------------------------------------------------------------------
  // The closed world of input events

  datatype Event =
    | CanvasClick(hits: seq<Hit>, phrase: nat)
    | DocumentKeyDown(code: string)
    | DocumentKeyUp(code: string)
    | LockChanged(locked: bool)
    | StartPressed
    | TerminalKeyDown(key: string, value: string, clock: string, joke: nat)

  /** The random picks an event carries are within their tables. */
  predicate WellFormed(e: Event) {
    match e
    case CanvasClick(_, phrase) => phrase < |CatPhrases|
    case TerminalKeyDown(_, _, _, joke) => joke < |Jokes|
    case _ => true
  }

  predicate AllWellFormed(es: seq<Event>) {
    forall i :: 0 <= i < |es| ==> WellFormed(es[i])
  }

  function Step(s: RoomState, e: Event): (r: RoomState)
    requires Inv(s)
    requires WellFormed(e)
    ensures Inv(r)
  {
    match e
    case CanvasClick(hits, phrase) => OnClick(s, hits, phrase)
    case DocumentKeyDown(code) => KeyDown(s, code)
    case DocumentKeyUp(code) => KeyUp(s, code)
    case LockChanged(locked) => PointerLockChange(s, locked)
    case StartPressed => StartButton(s)
    case TerminalKeyDown(key, value, clock, joke) => CliKeyDown(s, key, value, clock, joke)
  }

  /** The state after the events `es`, in order. Every state it passes through
      satisfies the invariant. */
  function Run(s: RoomState, es: seq<Event>): (r: RoomState)
    requires Inv(s)
    requires AllWellFormed(es)
    ensures Inv(r)
    decreases |es|
  {
    if es == [] then s
    else
      var t := Step(s, es[0]);
      assert Inv(t);
      Run(t, es[1..])
  }
}

=== FILE: types.dfy ===
/** Values shared by the interaction model of the cozy room: the tagged
    interactive objects, raycast hits, sound cues, screen materials, host
    requests, and the record of everything the interaction handlers change. */
module SceneTypes {

  datatype Option<T> = None | Some(value: T)

  /** The `userData.type` tag of each interactive mesh (index.js:173-365). */
  datatype Kind = Lamp | Tv | Computer | Cat | Sofa

  /** One entry of the raycaster's result: which object was hit and how far away. */
  datatype Hit = Hit(kind: Kind, distance: real)

  /** The sound a handler asks the audio layer to play (index.js:37-72). */
  datatype Cue = Click | Static | Meow | Purr | Keypress

  /** A screen's material: the shared dark "off" material, or a flat colour. */
  datatype Material = ScreenOff | Basic(color: int)

  datatype Vec3 = Vec3(x: real, y: real, z: real)

  /** Effects handed to the browser instead of being performed:
      `window.open`, `document.exitPointerLock()` and
      `requestPointerLock()` after `delayMs` milliseconds. */
  datatype HostRequest =
    | OpenTab(url: string, target: string)
    | ExitPointerLock
    | RequestPointerLock(delayMs: nat)

  /** The `state` record (index.js:2-12). */
  datatype Flags = Flags(
    lampOn: bool,
    tvOn: bool,
    tvChannel: int,
    computerOn: bool,
    isPointerLocked: bool,
    isUsingComputer: bool,
    isSitting: bool,
    catPetCount: nat)

  /** The mouse-look angles `yaw` and `pitch` (index.js:376-377) and the
      camera's position and rotation. */
  datatype View = View(yaw: real, pitch: real, position: Vec3, rotation: Vec3)

  /** The light levels and materials the handlers set: the lamp's point light,
      the bulb's colour, the ambient light, the television's light and screen,
      and the monitor's screen. */
  datatype Look = Look(
    lampIntensity: real,
    bulbColor: int,
    ambientIntensity: real,
    tvIntensity: real,
    tvScreen: Material,
    monitorScreen: Material)

  /** The page elements the handlers write: the terminal's lines, whether the
      terminal is shown, and the text of the cat's speech bubble. */
  datatype Page = Page(transcript: seq<string>, cliVisible: bool, catBubble: string)

  /** Everything the interaction handlers read or change: the `state` record,
      the held-keys table (index.js:375), the view, the lights and materials,
      the page, and the logs of sound cues and host requests. */
  datatype RoomState = RoomState(
    state: Flags,
    keys: map<string, bool>,
    view: View,
    look: Look,
    page: Page,
    sounds: seq<Cue>,
    requests: seq<HostRequest>)

  /** Only hits nearer than this many world units are interaction targets. */
  const InteractionRange: real := 4.0

  const LampOnIntensity: real := 1.5
  const BulbOnColor: int := 0xffdd88
  const BulbOffColor: int := 0x333333
  const AmbientLampOn: real := 0.4
  const AmbientLampOff: real := 0.3
  const TvOnIntensity: real := 0.8

  /** Screen tint of channels 1..5, in order. */
  const ChannelColors: seq<int> := [0xff4444, 0x44ff44, 0x4444ff, 0xffff44, 0xff44ff]
  const ChannelCount: int := 5

  const MonitorOnColor: int := 0x001100
  const TerminalUrl: string := "https://9up.us/cli"

  /** Delay before pointer lock is requested again after leaving the computer. */
  const RelockDelayMs: nat := 100

  const StartPosition: Vec3 := Vec3(0.0, 1.6, 3.0)
  const SeatPosition: Vec3 := Vec3(0.0, 1.1, 1.2)
  const Level: Vec3 := Vec3(0.0, 0.0, 0.0)

  const CatPhrases: seq<string> :=
    ["Meow!?", "check the computer out", "enter the desktop terminal", "zZzZ..."]
}
